=== FILE: README.md ===
# Duke command parser and task model, in Dafny

Duke is a command-line task list. Each user line is split by the program's
input loop into a command word and an argument text. `duke.parser.Parser`
turns that pair into a command: `bye`, `list`, `todo`, `deadline`, `event`,
`mark`, `unmark`, `delete`, or an `Invalid` command that carries the usage
lines to show. No parse error escapes the parser. This project models that
parser, the `Event` task (its date-reading constructor, its data-record
format and its display text), and the plain `Task` class (description, done
flag, check-box rendering). It proves properties about them.

Modules, one per file:

- `Wrappers` (`wrappers.dfy`): `Option`.
- `Decimal` (`decimal.dfy`): decimal digit strings, with their values, fixed-width and shortest renderings, and the round trips between them.
- `JavaString` (`java_string.dfy`): Java's `String.trim()`, and `split(sep, 2)` for a non-empty literal separator.
- `JavaInt` (`java_int.dfy`): Java's `Integer.parseInt` on 32-bit ints.
- `Dates` (`dates.dfy`): the `yyyy-MM-dd` and `yyyy-MM-dd HHmm` date patterns, read with the ISO calendar's default resolver.
- `Tasks` (`tasks.dfy`): `Task.java`.
- `Events` (`events.dfy`): `duke/data/task/Event.java`.
- `Commands` (`commands.dfy`): the command variants.
- `Parser` (`parser.dfy`): `duke/parser/Parser.java`.

The constants class `duke.common.Strings` is not part of this model. The
eight command words are the words of the program's input interface. The
two separators and all usage texts enter as one `Parser.Texts` value. The
separators are required to be non-empty.

The model follows the code, including these quirks:

- `bye` accepts only an exactly empty argument text; a lone blank makes it invalid. The text is not trimmed first.
- `todo` rejects only an exactly empty text. A text of blanks gives a `todo` with an empty description.
- `deadline` and `event` need only the separator. The description, the time, or both may come out empty.
- An unknown command word yields an `Invalid` with no command word and no usage lines. The word is not attached.

## Model

| member | source | states |
|---|---|---|
| Parser.ParseCommand | src/main/java/duke/parser/Parser.java:13-35 | Each command variant comes only from its own word. An unknown word gives the bare invalid command. The result is invalid exactly when the word is unknown or its argument text is unacceptable under an independent acceptance predicate. An invalid result for a recognised word names the word, carries that word's usage lines, and shows the separator hint exactly for `deadline` and `event`. Each variant carries its payload. A list query is absent for empty text, else the date read. A todo description is the trimmed text. Deadline and event parts are the first-separator split. An index is the parsed int. |
| Parser.RecognisedWordsWithValidArgs | src/main/java/duke/parser/Parser.java:13-35 | For every recognised word with acceptable arguments, parsing never gives `Invalid`. Every unknown word gives the bare `Invalid`. |
| Parser.PrepareBye | src/main/java/duke/parser/Parser.java:38-47 | `bye` results exactly when the argument text is empty. Otherwise the result is the invalid command with the `bye` usage line. |
| Parser.BlankArguments | src/main/java/duke/parser/Parser.java:38-74 | A non-empty text of blanks makes `bye` invalid but gives a `todo` with an empty description. |
| Parser.PrepareList | src/main/java/duke/parser/Parser.java:49-63 | An empty text lists everything. A non-empty text that reads as `yyyy-MM-dd` gives a query for exactly that date, never the list-everything command. A non-empty text that does not read as a date gives the invalid command with both list usage lines. |
| Parser.ListRoundTrip | src/main/java/duke/parser/Parser.java:49-63 | Every real date, once written as `yyyy-MM-dd`, gives a list query for that same date. |
| Parser.PrepareTodo | src/main/java/duke/parser/Parser.java:65-74 | The result is invalid exactly when the text is empty. Otherwise the description is the trimmed text. |
| Parser.SplitDescriptionAndTime | src/main/java/duke/parser/Parser.java:78-83 | The split fails exactly when the trimmed text lacks the separator. Both parts that come back are trimmed. |
| Parser.SplitAtFirstSeparator | src/main/java/duke/parser/Parser.java:78-83 | When the trimmed text is `before + sep + after` with no earlier occurrence of `sep`, the parts are the trimmed `before` and the trimmed `after`. Later separators stay in the time. |
| Parser.SplitRoundTrip | src/main/java/duke/parser/Parser.java:78-83 | A description and a time written around the separator with one blank on each side split back into the same two texts. This holds when both are non-empty and unpadded, the separator does not start with a blank, and the description lacks the separator's first char. |
| Parser.SplitBareSeparator | src/main/java/duke/parser/Parser.java:78-83 | A separator with no blank at either end, surrounded only by blanks, splits into two empty parts. |
| Parser.PrepareDeadline | src/main/java/duke/parser/Parser.java:76-88 | The result is invalid, with the separator hint, exactly when the trimmed text lacks the deadline separator. Otherwise the description and due time are the two trimmed parts around the first separator. |
| Parser.DeadlineSplitExample | src/main/java/duke/parser/Parser.java:76-88 | With separator `/by`, `submit report /by 2019-10-15 /by noon` gives description `submit report` and time `2019-10-15 /by noon`. |
| Parser.PrepareEvent | src/main/java/duke/parser/Parser.java:90-102 | The result is invalid, with the separator hint, exactly when the trimmed text lacks the event separator. Otherwise the description and time are the two trimmed parts around the first separator. |
| Parser.TimedCommandsAcceptEmptyParts | src/main/java/duke/parser/Parser.java:76-102 | For both `deadline` and `event`, when the separator has no blank at either end, the separator surrounded only by blanks is accepted, with an empty description and an empty time. |
| Parser.PrepareMark | src/main/java/duke/parser/Parser.java:104-111 | `mark` results exactly when the text parses as a 32-bit int, and it carries that int. Otherwise the result is invalid with the `mark` usage line. |
| Parser.PrepareUnmark | src/main/java/duke/parser/Parser.java:113-120 | The same as `mark`, for `unmark`. |
| Parser.PrepareDelete | src/main/java/duke/parser/Parser.java:122-129 | The same as `mark`, for `delete`. |
| Parser.IndexCommandsRoundTrip | src/main/java/duke/parser/Parser.java:104-129 | Every 32-bit int, zero and negatives included, written in decimal gives the index command for that int. For all three commands, a value beyond 32 bits is invalid, and so is a leading blank. |
| JavaString.Trim | src/main/java/duke/parser/Parser.java:78 | The result is a contiguous piece of the input that starts and ends with a char above U+0020. Every char cut off on either side is at most U+0020. |
| JavaString.TrimUnique | src/main/java/duke/parser/Parser.java:82-83 | Any split of a text into removable padding, a trimmed middle and removable padding makes the middle the result of trimming. |
| JavaString.TrimIdempotent | src/main/java/duke/parser/Parser.java:82-83 | Trimming an already trimmed text changes nothing. |
| JavaString.TrimEmptyIff | src/main/java/duke/parser/Parser.java:70 | Trimming gives the empty text exactly when every char is at most U+0020. |
| JavaString.TrimOfTrimmed | src/main/java/duke/parser/Parser.java:82-83 | A text with no removable char at either end is its own trim. |
| JavaString.TrimBlankAfter | src/main/java/duke/parser/Parser.java:82 | One blank after a trimmed text is removed again. |
| JavaString.TrimBlankBefore | src/main/java/duke/parser/Parser.java:83 | One blank before a trimmed text is removed again. |
| JavaString.SplitLimit2 | src/main/java/duke/parser/Parser.java:78-79 | The result has one part, the whole text, exactly when the separator does not occur. Otherwise it has two parts that rebuild the text around the first occurrence. |
| JavaString.SplitLimit2Unique | src/main/java/duke/parser/Parser.java:78-79 | Any decomposition `before + sep + after` with no earlier occurrence is the split that is produced. |
| JavaInt.ParseInt | src/main/java/duke/parser/Parser.java:106 | Only an optional sign followed by one or more digits is accepted, and the value is a 32-bit int. Its magnitude is the decimal value of the digits. A `-` negates it; `+` or no sign keeps it. |
| JavaInt.ParseSignedShow | src/main/java/duke/parser/Parser.java:106 | A decimal text with an explicit `+` parses to its value, and with `-` to the negated value. Each is accepted exactly when the result fits 32 bits. |
| JavaInt.ParseIntExamples | src/main/java/duke/parser/Parser.java:106 | `+5` reads as 5, `-0` as 0 and `007` as 7. |
| JavaInt.ParseShowInt | src/main/java/duke/parser/Parser.java:106 | Decimal text parses back to its value exactly when the value fits 32 bits, and is rejected otherwise. |
| JavaInt.ParseIntIgnoresLeadingZero | src/main/java/duke/parser/Parser.java:106 | A zero inserted after the optional sign never changes the parse result. |
| Dates.ParseDate | src/main/java/duke/parser/Parser.java:55 | A text is accepted exactly when it has the `yyyy-MM-dd` shape with year at least 1, month 1..12 and day 1..31. The date read is a real calendar date with the written year and month. Its day is the written day, pulled back to the month's last day when it overshoots. |
| Dates.ParseFormatDate | src/main/java/duke/parser/Parser.java:55 | A written date with day 1..31 parses back to itself when it is real. A day past the month's end, up to 31, is pulled back to the month's last day. |
| Dates.FormatParseDate | src/main/java/duke/parser/Parser.java:55 | An accepted text whose day does not overshoot its month is exactly the written form of its date. |
| Dates.ParseDateTime | src/main/java/duke/data/task/Event.java:18 | A text is accepted exactly when it has the `yyyy-MM-dd HHmm` shape, its hour is 0..23 and its minute 0..59, and its first ten chars read as a date. The result is that date. The date-only pattern rejects every accepted text. |
| Dates.OutOfRangeFieldsRejected | src/main/java/duke/data/task/Event.java:18-21 | Fields out of range are refused, not clamped: `2019-10-45` and `2019-10-15 2500` are rejected. |
| Dates.ParseFormatDateTime | src/main/java/duke/data/task/Event.java:18 | A real date written with any valid hour and minute parses back to that date. |
| Dates.ExampleDateParses | src/main/java/duke/data/task/Event.java:21 | `2019-10-15` reads as 15 October 2019. |
| Dates.ExampleDateTimeParses | src/main/java/duke/data/task/Event.java:18 | `2019-10-15 1800` reads as 15 October 2019. |
| Events.NewEvent | src/main/java/duke/data/task/Event.java:14-26 | Construction never fails and keeps the description and time verbatim. A date is saved exactly when the time reads under either pattern. A saved date is real and is the date named by the first ten chars. |
| Events.DateTimeTakesPrecedence | src/main/java/duke/data/task/Event.java:17-21 | When the time reads as a date-time, the saved date is that reading's date. |
| Events.NewEventDateExamples | src/main/java/duke/data/task/Event.java:14-26 | Both `2019-10-15 1800` and `2019-10-15` save 15 October 2019. |
| Events.NewEventBadClockExample | src/main/java/duke/data/task/Event.java:17-24 | `2019-10-15 2500` saves no date and renders without the marker. |
| Events.NewEventFreeTextExample | src/main/java/duke/data/task/Event.java:14-39 | The free text `next Tuesday` saves no date and renders verbatim, without the marker. |
| Events.FormatAsData | src/main/java/duke/data/task/Event.java:29-31 | The record is `E`, the field separator, the base record, the field separator and the time, in that order. |
| Events.FormatAsDataDeterminesTime | src/main/java/duke/data/task/Event.java:29-31 | Two events with the same base record have equal records only when they have the same time. |
| Events.Render | src/main/java/duke/data/task/Event.java:34-39 | The text is `EVENT: `, the base text, ` (at: <time>` and the closing `)`. After that comes one `^` exactly when a date is saved. |
| Events.MarkerIffTimeParses | src/main/java/duke/data/task/Event.java:14-39 | A new event shows the `^` marker exactly when its time text reads under one of the two patterns. |
| Tasks.NewTask | src/main/java/Task.java:5-16 | A new task's getters return the given description and not-done. |
| Tasks.SetIsDone | src/main/java/Task.java:18-20 | The done flag becomes the given value and the description is unchanged. |
| Tasks.SetIsDoneLastWins | src/main/java/Task.java:18-20 | A second call overrides the first. Setting the flag to the value it already has leaves the task unchanged. |
| Tasks.SetIsDoneAll | src/main/java/Task.java:18-20 | After any sequence of calls, the description is the original one and the flag is the last value set, or the initial flag if there were no calls. |
| Tasks.Render | src/main/java/Task.java:23-29 | The text is a four-char box `[✓] ` for a done task or `[ ] ` otherwise, followed by the untouched description. |
| Tasks.RenderInjective | src/main/java/Task.java:23-29 | Two tasks with the same text are the same task: the text determines both the description and the flag. |

## Left out

- Command execution, the task list, storage, the user interface and the input loop that splits a line into word and arguments: outside the parser and task core.
- `duke.common.Strings`: not part of this model. Its separators and usage texts are the `Parser.Texts` parameter, and the separators must be non-empty.
- The `duke.data.task.Task` base class of `Event`: not part of this model. Its `formatAsData` and `toString` results are the `baseData` and `baseText` parameters, and its `savedDate` field is kept on the event.
- `Deadline` task construction: not part of this model. The parser only builds the `Deadline` command.
- Parser.ParseCommand: requires both separators to be non-empty (`Texts.Valid`), because `split` is modelled only for a non-empty literal separator.
- JavaString.SplitLimit2: regular-expression semantics of `split` are not modelled. Separators are treated as literal text.
- JavaInt.ParseInt: accepts only ASCII digits, whereas Java also accepts other Unicode decimal digits.
- Dates.ParseDate: rejects a year written as `+` followed by five or more digits (`+10000-01-01`, `+02019-10-15`), which the `yyyy` pattern accepts. The model keeps unsigned four-digit years 1..9999; five or more digits without `+`, and any `-` sign, are refused by both.
- Dates.ParseDateTime: rejects hour `24` with minute `00`, which the default resolver rolls over to the next day's midnight. It also rejects the `+`-signed years of five or more digits described for `Dates.ParseDate`.
- The command words and date patterns of `duke.common.Strings` are assumed: the eight literal words `bye`, `list`, `todo`, `deadline`, `event`, `mark`, `unmark`, `delete`, and the patterns `yyyy-MM-dd` and `yyyy-MM-dd HHmm`.
- Date-time values other than the saved date (the time of day): dropped by the source itself through `toLocalDate()`.

=== FILE: commands.dfy ===
/** The command variants the parser produces, one per operation, each holding
    only what its execution needs. Execution itself is not part of this model. */
module Commands {
  import opened Wrappers
  import opened Dates

  datatype Command =
    | Bye
      /** `queryDate` absent means "list every task". */
    | List(queryDate: Option<Date>)
    | Todo(description: string)
    | Deadline(description: string, due: string)
    | Event(description: string, time: string)
      /** Indices are the 1-based numbers the user typed, not yet checked against the list. */
    | Mark(index: int)
    | Unmark(index: int)
    | Delete(index: int)
      /** A rejected input: the command word it was meant for (absent for an
          unknown word), the usage lines to show, and whether to explain the
          description/time separator. */
    | Invalid(commandWord: Option<string>, usage: seq<string>, showsSeparatorHint: bool)
}

=== FILE: dates.dfy ===
/** Calendar dates and the two text patterns the task model reads them from:
    `yyyy-MM-dd` (date only) and `yyyy-MM-dd HHmm` (date with a 24-hour time,
    no colon). Parsing is strict about shape: exact length, a dash at each
    separator, digits elsewhere. Field values follow the ISO calendar with the
    default ("smart") resolver: the year must be at least 1, the month 1..12,
    the day 1..31, and a day past the end of its month is pulled back to the
    month's last day. */
module Dates {
  import opened Wrappers
  import opened Decimal

  datatype Date = Date(year: int, month: int, day: int)

  predicate IsLeapYear(year: int)
  {
    year % 4 == 0 && (year % 100 != 0 || year % 400 == 0)
  }

  function DaysInMonth(year: int, month: int): (n: int)
    requires 1 <= month <= 12
    ensures 28 <= n <= 31
    ensures n == 31 <==> month in {1, 3, 5, 7, 8, 10, 12}
  {
    if month == 2 then (if IsLeapYear(year) then 29 else 28)
    else if month in {4, 6, 9, 11} then 30
    else 31
  }

  /** A real calendar date whose year fits the four-digit year field. */
  predicate IsValid(d: Date)
  {
    1 <= d.year <= 9999 && 1 <= d.month <= 12 && 1 <= d.day <= DaysInMonth(d.year, d.month)
  }

  /** Ten chars: four digits, `-`, two digits, `-`, two digits. */
  predicate HasDateShape(s: string)
  {
    |s| == 10 && AllDigits(s[..4]) && s[4] == '-' && AllDigits(s[5..7]) && s[7] == '-' && AllDigits(s[8..])
  }

  /** Fifteen chars: a date, one space, then four digits `HHmm`. */
  predicate HasDateTimeShape(s: string)
  {
    |s| == 15 && HasDateShape(s[..10]) && s[10] == ' ' && AllDigits(s[11..])
  }

  /** The date written as `yyyy-MM-dd`. */
  function FormatDate(d: Date): (s: string)
    requires 0 <= d.year && 0 <= d.month && 0 <= d.day
    ensures HasDateShape(s)
  {
    Fixed(d.year, 4) + "-" + Fixed(d.month, 2) + "-" + Fixed(d.day, 2)
  }

  /** The date and a time of day written as `yyyy-MM-dd HHmm`. */
  function FormatDateTime(d: Date, hour: nat, minute: nat): (s: string)
    requires 0 <= d.year && 0 <= d.month && 0 <= d.day
    ensures HasDateTimeShape(s)
  {
    var s := FormatDate(d) + " " + Fixed(hour, 2) + Fixed(minute, 2);
    assert s[..10] == FormatDate(d);
    assert s[11..] == Fixed(hour, 2) + Fixed(minute, 2);
    s
  }

  /** Parsing `s` against `yyyy-MM-dd`; `None` is the parse exception. The
      text is accepted exactly when it has the shape and its fields lie in the
      ranges year >= 1, month 1..12, day 1..31; the date read keeps the year and
      month and pulls a day past the month's end back to its last day. */
  function ParseDate(s: string): (r: Option<Date>)
    ensures r.Some? ==> HasDateShape(s) && IsValid(r.value)
    ensures r.Some? <==> HasDateShape(s) && 1 <= Value(s[..4]) && 1 <= Value(s[5..7]) <= 12 && 1 <= Value(s[8..]) <= 31
    ensures r.Some? ==> r.value.year == Value(s[..4]) && r.value.month == Value(s[5..7])
    ensures r.Some? ==> r.value.day == Min(Value(s[8..]), DaysInMonth(r.value.year, r.value.month))
  {
    if !HasDateShape(s) then None
    else
      var year, month, day := Value(s[..4]), Value(s[5..7]), Value(s[8..]);
      if year < 1 || month < 1 || 12 < month || day < 1 || 31 < day then None
      else
        Some(Date(year, month, Min(day, DaysInMonth(year, month))))
  }

  /** The `HHmm` part of a date-time text is a clock reading: hour 0..23,
      minute 0..59. */
  predicate IsClock(s: string)
    requires HasDateTimeShape(s)
  {
    assert AllDigits(s[11..13]) by { assert forall i :: 0 <= i < 2 ==> s[11..13][i] == s[11..][i]; }
    Value(s[11..13]) <= 23 && Value(s[13..]) <= 59
  }

  /** Parsing `s` against `yyyy-MM-dd HHmm` and keeping only the date. The
      text is accepted exactly when it has the shape, its time is a clock
      reading and its first ten chars read as a date. */
  function ParseDateTime(s: string): (r: Option<Date>)
    ensures r.Some? <==> HasDateTimeShape(s) && IsClock(s) && ParseDate(s[..10]).Some?
    ensures r.Some? ==> r == ParseDate(s[..10])
    ensures r.Some? ==> ParseDate(s).None?
  {
    if !HasDateTimeShape(s) then None
    else if !IsClock(s) then None
    else ParseDate(s[..10])
  }

  /** A formatted date with day 1..31 parses back: to itself when it is a
      real date, and to the last day of its month when its day overshoots the
      month. */
  lemma ParseFormatDate(d: Date)
    requires 1 <= d.year <= 9999 && 1 <= d.month <= 12 && 1 <= d.day <= 31
    ensures ParseDate(FormatDate(d)) == Some(Date(d.year, d.month, Min(d.day, DaysInMonth(d.year, d.month))))
    ensures IsValid(d) ==> ParseDate(FormatDate(d)) == Some(d)
  {
    var s := FormatDate(d);
    assert s[..4] == Fixed(d.year, 4);
    assert s[5..7] == Fixed(d.month, 2);
    assert s[8..] == Fixed(d.day, 2);
    ValueOfFixed(d.year, 4);
    ValueOfFixed(d.month, 2);
    ValueOfFixed(d.day, 2);
  }

  /** A text the date parser accepts, whose day does not overshoot its month,
      is exactly the formatting of the date it denotes. */
  lemma FormatParseDate(s: string)
    requires ParseDate(s).Some? && Value(s[8..]) <= DaysInMonth(Value(s[..4]), Value(s[5..7]))
    ensures FormatDate(ParseDate(s).value) == s
  {
    var d := ParseDate(s).value;
    FixedOfValue(s[..4]);
    FixedOfValue(s[5..7]);
    FixedOfValue(s[8..]);
    assert s == s[..4] + "-" + s[5..7] + "-" + s[8..];
  }

  /** A formatted date-time with a valid clock reading parses to its date. */
  lemma ParseFormatDateTime(d: Date, hour: nat, minute: nat)
    requires IsValid(d) && hour <= 23 && minute <= 59
    ensures ParseDateTime(FormatDateTime(d, hour, minute)) == Some(d)
  {
    var s := FormatDateTime(d, hour, minute);
    assert s == FormatDate(d) + " " + Fixed(hour, 2) + Fixed(minute, 2);
    assert s[..10] == FormatDate(d);
    assert s[11..13] == Fixed(hour, 2);
    assert s[13..] == Fixed(minute, 2);
    ValueOfFixed(hour, 2);
    ValueOfFixed(minute, 2);
    ParseFormatDate(d);
  }

  /** The date pattern reads `2019-10-15` as 15 October 2019. */
  lemma ExampleDateParses()
    ensures ParseDate("2019-10-15") == Some(Date(2019, 10, 15))
  {
    var d := Date(2019, 10, 15);
    assert FormatDate(d) == "2019-10-15" by {
      assert Fixed(2019, 4) == "2019";
      assert Fixed(10, 2) == "10";
      assert Fixed(15, 2) == "15";
    }
    ParseFormatDate(d);
  }

  /** The date-time pattern reads `2019-10-15` from `2019-10-15 1800`. */
  lemma ExampleDateTimeParses()
    ensures ParseDateTime("2019-10-15 1800") == Some(Date(2019, 10, 15))
  {
    var s := "2019-10-15 1800";
    ExampleDateParses();
    assert s[..10] == "2019-10-15";
    assert s[11..13] == "18" && s[13..] == "00";
    assert HasDateTimeShape(s) by {
      assert AllDigits(s[11..]) by { assert s[11..] == "1800"; }
    }
    assert Value(s[11..13]) == 18 by { TwoDigitValue(s[11..13]); }
    assert Value(s[13..]) == 0 by { TwoDigitValue(s[13..]); }
  }

  /** Fields out of range are refused, not clamped: day 45, and hour 25. */
  lemma OutOfRangeFieldsRejected()
    ensures ParseDate("2019-10-45") == None
    ensures ParseDateTime("2019-10-15 2500") == None
  {
    var d, dt := "2019-10-45", "2019-10-15 2500";
    assert d[8..] == "45";
    assert Value(d[8..]) == 45 by { TwoDigitValue(d[8..]); }
    assert dt[11..13] == "25";
    if HasDateTimeShape(dt) {
      assert Value(dt[11..13]) == 25 by { TwoDigitValue(dt[11..13]); }
    }
  }

  /** The value of a two-digit text. */
  lemma TwoDigitValue(s: string)
    requires |s| == 2 && AllDigits(s)
    ensures Value(s) == 10 * DigitValue(s[0]) + DigitValue(s[1])
  {
  }

  function Min(a: int, b: int): (m: int) { if a <= b then a else b }
}

=== FILE: decimal.dfy ===
/** ASCII decimal digit strings: their value, and the two ways of writing a
    number back out (fixed width with leading zeros, and shortest form). */
module Decimal {

  predicate IsDigit(c: char) { '0' <= c <= '9' }

  predicate AllDigits(s: string) { forall i :: 0 <= i < |s| ==> IsDigit(s[i]) }

  function DigitValue(c: char): (v: nat)
    requires IsDigit(c)
    ensures v < 10
  {
    c as int - '0' as int
  }

  function Digit(v: nat): (c: char)
    requires v < 10
    ensures IsDigit(c) && DigitValue(c) == v
  {
    ('0' as int + v) as char
  }

  function Pow10(n: nat): (p: nat)
    ensures p >= 1
  {
    if n == 0 then 1 else 10 * Pow10(n - 1)
  }

  /** The number a digit string denotes, most significant digit first;
      leading zeros are allowed and the empty string denotes 0. */
  function Value(s: string): (v: nat)
    requires AllDigits(s)
    ensures v < Pow10(|s|)
    decreases |s|
  {
    if |s| == 0 then 0
    else
      var p := Value(s[..|s| - 1]);
      assert p <= Pow10(|s| - 1) - 1;
      p * 10 + DigitValue(s[|s| - 1])
  }

  /** `n` written with exactly `width` digits, padded with leading zeros
      (only the low `width` digits survive when `n` is too large). */
  function Fixed(n: nat, width: nat): (s: string)
    ensures |s| == width && AllDigits(s)
  {
    if width == 0 then [] else Fixed(n / 10, width - 1) + [Digit(n % 10)]
  }

  /** `n` written with no leading zeros (a single "0" for zero). */
  function Show(n: nat): (s: string)
    ensures |s| >= 1 && AllDigits(s)
    ensures |s| > 1 ==> s[0] != '0'
  {
    if n < 10 then [Digit(n)] else Show(n / 10) + [Digit(n % 10)]
  }

  /** Reading back a fixed-width rendering gives the number, as long as it fits. */
  lemma {:induction false} ValueOfFixed(n: nat, width: nat)
    requires n < Pow10(width)
    ensures Value(Fixed(n, width)) == n
  {
    if width > 0 {
      var s := Fixed(n, width);
      assert s[..|s| - 1] == Fixed(n / 10, width - 1);
      ValueOfFixed(n / 10, width - 1);
    }
  }

  /** Rendering a digit string's value at the string's own width gives the string back. */
  lemma {:induction false} FixedOfValue(s: string)
    requires AllDigits(s)
    ensures Fixed(Value(s), |s|) == s
  {
    if |s| > 0 {
      var p := s[..|s| - 1];
      assert AllDigits(p);
      var v := Value(s);
      assert v / 10 == Value(p) && v % 10 == DigitValue(s[|s| - 1]);
      FixedOfValue(p);
      assert s == p + [s[|s| - 1]];
    }
  }

  /** Reading back the shortest rendering gives the number. */
  lemma {:induction false} ValueOfShow(n: nat)
    ensures Value(Show(n)) == n
  {
    if n >= 10 {
      var s := Show(n);
      assert s[..|s| - 1] == Show(n / 10);
      ValueOfShow(n / 10);
    }
  }

  /** Leading zeros do not change the value of a digit string. */
  lemma {:induction false} ValueIgnoresLeadingZero(s: string)
    requires AllDigits(s)
    ensures AllDigits("0" + s) && Value("0" + s) == Value(s)
  {
    var z := "0" + s;
    assert AllDigits(z) by {
      forall i | 0 <= i < |z| ensures IsDigit(z[i]) {
        if i > 0 { assert z[i] == s[i - 1]; }
      }
    }
    if |s| > 0 {
      var p := s[..|s| - 1];
      assert z[..|z| - 1] == "0" + p;
      ValueIgnoresLeadingZero(p);
    }
  }
}

=== FILE: events.dfy ===
/** `duke.data.task.Event`: a task with a free-text time, plus the date read
    from that text when it matches one of the two date patterns. The base
    class `duke.data.task.Task` is not part of this model; what its
    `formatAsData` and `toString` produce enters here as a parameter
    (`baseData`, `baseText`), and its `savedDate` field lives on the event. */
module Events {
  import opened Wrappers
  import opened Dates

  datatype Event = Event(description: string, time: string, savedDate: Option<Date>)

  /** The constructor never fails: the time text is kept verbatim, and the
      saved date is the date part of a `yyyy-MM-dd HHmm` reading if there is
      one, else a `yyyy-MM-dd` reading, else absent. Whenever a date is saved
      it is a real calendar date named by the first ten chars of the text. */
  function NewEvent(description: string, time: string): (e: Event)
    ensures e.description == description && e.time == time
    ensures e.savedDate.Some? <==> ParseDateTime(time).Some? || ParseDate(time).Some?
    ensures e.savedDate.Some? ==> IsValid(e.savedDate.value)
    ensures e.savedDate.Some? ==> |time| >= 10 && e.savedDate == ParseDate(time[..10])
  {
    var savedDate := match ParseDateTime(time)
      case Some(d) => Some(d)
      case None => ParseDate(time);
    assert |time| == 10 ==> time[..10] == time;
    Event(description, time, savedDate)
  }

  /** `formatAsData(FS)`: the tag `E`, the base record and the time text,
      joined by `FS`. */
  function FormatAsData(e: Event, fs: string, baseData: string): (r: string)
    ensures |r| == 1 + |fs| + |baseData| + |fs| + |e.time|
    ensures r[..1 + |fs|] == "E" + fs
    ensures r[1 + |fs|..1 + |fs| + |baseData|] == baseData
    ensures r[|r| - |fs| - |e.time|..] == fs + e.time
  {
    var r := "E" + fs + baseData + fs + e.time;
    assert r[1 + |fs|..1 + |fs| + |baseData|] == baseData;
    assert r[|r| - |fs| - |e.time|..] == fs + e.time;
    r
  }

  /** `toString()`: `EVENT: `, the base rendering, ` (at: <time>)`, and a
      trailing `^` exactly when a date was saved. */
  function Render(e: Event, baseText: string): (r: string)
    ensures |r| == 7 + |baseText| + 6 + |e.time| + 1 + (if e.savedDate.Some? then 1 else 0)
    ensures r[..7] == "EVENT: "
    ensures r[7..7 + |baseText|] == baseText
    ensures r[7 + |baseText|..13 + |baseText| + |e.time|] == " (at: " + e.time
    ensures r[13 + |baseText| + |e.time|] == ')'
    ensures r[|r| - 1] == '^' <==> e.savedDate.Some?
  {
    var body := "EVENT: " + baseText + " (at: " + e.time + ")";
    assert body[7..7 + |baseText|] == baseText;
    assert body[7 + |baseText|..13 + |baseText| + |e.time|] == " (at: " + e.time;
    if e.savedDate.Some? then body + "^" else body
  }

  /** The date-time pattern wins: when the text reads as a date-time, the
      saved date is its date part, whatever the date-only pattern says. */
  lemma DateTimeTakesPrecedence(description: string, time: string)
    requires ParseDateTime(time).Some?
    ensures NewEvent(description, time).savedDate == ParseDateTime(time)
  {
  }

  /** An event renders with the `^` marker exactly when its time text reads
      as one of the two date patterns. */
  lemma MarkerIffTimeParses(description: string, time: string, baseText: string)
    ensures var r := Render(NewEvent(description, time), baseText);
      r[|r| - 1] == '^' <==> ParseDateTime(time).Some? || ParseDate(time).Some?
  {
  }

  /** Records for two events with the same base record agree only when the
      events have the same time text. */
  lemma FormatAsDataDeterminesTime(e1: Event, e2: Event, fs: string, baseData: string)
    requires FormatAsData(e1, fs, baseData) == FormatAsData(e2, fs, baseData)
    ensures e1.time == e2.time
  {
    var r := FormatAsData(e1, fs, baseData);
    assert r[1 + 2 * |fs| + |baseData|..] == e1.time;
    assert FormatAsData(e2, fs, baseData)[1 + 2 * |fs| + |baseData|..] == e2.time;
  }

  /** Construction examples: a date-time text and a date-only text both save
      15 October 2019. */
  lemma NewEventDateExamples()
    ensures NewEvent("talk", "2019-10-15 1800").savedDate == Some(Date(2019, 10, 15))
    ensures NewEvent("talk", "2019-10-15").savedDate == Some(Date(2019, 10, 15))
  {
    ExampleDateParses();
    ExampleDateTimeParses();
  }

  /** A date-time text whose hour is out of range saves no date: the
      date-time pattern refuses it and the date-only pattern refuses its
      length. */
  lemma NewEventBadClockExample(baseText: string)
    ensures NewEvent("talk", "2019-10-15 2500").savedDate == None
    ensures Render(NewEvent("talk", "2019-10-15 2500"), baseText)
         == "EVENT: " + baseText + " (at: 2019-10-15 2500)"
  {
    OutOfRangeFieldsRejected();
  }

  /** Free text saves no date and still renders verbatim, without the marker. */
  lemma NewEventFreeTextExample(baseText: string)
    ensures NewEvent("talk", "next Tuesday").savedDate == None
    ensures Render(NewEvent("talk", "next Tuesday"), baseText)
         == "EVENT: " + baseText + " (at: next Tuesday)"
  {
  }
}

=== FILE: java_int.dfy ===
/** `Integer.parseInt(s)` on ASCII text: an optional `+` or `-`, then one or
    more decimal digits, whose value must fit a 32-bit two's-complement int.
    Anything else (empty text, a lone sign, surrounding blanks, a value out of
    range) is the `NumberFormatException` path, modelled as `None`. */
module JavaInt {
  import opened Wrappers
  import opened Decimal

  const MinInt: int := -0x8000_0000
  const MaxInt: int := 0x7fff_ffff

  predicate InInt32(n: int) { MinInt <= n <= MaxInt }

  predicate IsSign(c: char) { c == '-' || c == '+' }

  function ParseInt(s: string): (r: Option<int>)
    ensures r.Some? ==> InInt32(r.value)
    ensures r.Some? ==> |s| > 0 && (IsDigit(s[0]) || (IsSign(s[0]) && |s| > 1)) && AllDigits(s[1..])
    ensures r.Some? ==> (s[0] == '-' ==> r.value <= 0) && (s[0] != '-' ==> r.value >= 0)
    ensures r.Some? ==>
              AllDigits(if IsSign(s[0]) then s[1..] else s) &&
              Value(if IsSign(s[0]) then s[1..] else s) == (if s[0] == '-' then -r.value else r.value)
  {
    if |s| == 0 then None
    else
      var digits := if IsSign(s[0]) then s[1..] else s;
      if |digits| == 0 || !AllDigits(digits) then None
      else
        var m: int := Value(digits);
        var v := if s[0] == '-' then -m else m;
        if InInt32(v) then Some(v) else None
  }

  /** Decimal rendering of an int, as `Integer.toString` writes it. */
  function ShowInt(n: int): (s: string)
    ensures |s| >= 1
  {
    if n < 0 then "-" + Show(-n) else Show(n)
  }

  /** Every 32-bit value survives a render-then-parse round trip, and every
      value outside that range is rejected. */
  lemma ParseShowInt(n: int)
    ensures ParseInt(ShowInt(n)) == (if InInt32(n) then Some(n) else None)
  {
    var s := ShowInt(n);
    if n < 0 {
      assert s[1..] == Show(-n);
      ValueOfShow(-n);
    } else {
      ValueOfShow(n);
    }
  }

  /** An explicit sign in front of a decimal text: `+` keeps the value and `-`
      negates it, each accepted exactly when the result fits 32 bits. */
  lemma ParseSignedShow(n: nat)
    ensures ParseInt("+" + Show(n)) == (if n <= MaxInt then Some(n) else None)
    ensures ParseInt("-" + Show(n)) == (if n <= -MinInt then Some(-(n as int)) else None)
  {
    ValueOfShow(n);
    var plus, minus := "+" + Show(n), "-" + Show(n);
    assert plus[0] == '+' && plus[1..] == Show(n);
    assert minus[0] == '-' && minus[1..] == Show(n);
    assert InInt32(-(n as int)) <==> n <= -MinInt;
  }

  /** `+5` reads as 5, `-0` as 0 and `007` as 7. */
  lemma ParseIntExamples()
    ensures ParseInt("+5") == Some(5)
    ensures ParseInt("-0") == Some(0)
    ensures ParseInt("007") == Some(7)
  {
    assert "+5"[1..] == "5" && "-0"[1..] == "0";
    assert Value("5") == 5 by { assert "5"[..0] == []; }
    assert Value("0") == 0 by { assert "0"[..0] == []; }
    assert Value("007") == 7 by {
      assert "007"[..2] == "00" && "00"[..1] == "0" && "0"[..0] == [];
    }
  }

  /** A zero inserted after the sign (or at the front) leaves the parse unchanged. */
  lemma ParseIntIgnoresLeadingZero(sign: string, digits: string)
    requires sign == "" || sign == "-" || sign == "+"
    requires |digits| > 0 && !IsSign(digits[0])
    ensures ParseInt(sign + "0" + digits) == ParseInt(sign + digits)
  {
    var s, t := sign + "0" + digits, sign + digits;
    var ds, dt := s[|sign|..], t[|sign|..];
    assert ds == "0" + digits && dt == digits;
    assert IsSign(s[0]) <==> sign != "";
    assert IsSign(t[0]) <==> sign != "";
    if AllDigits(digits) {
      ValueIgnoresLeadingZero(digits);
    } else {
      var j :| 0 <= j < |digits| && !IsDigit(digits[j]);
      assert ds[1 + j] == digits[j] && dt[j] == digits[j];
    }
  }
}

=== FILE: java_string.dfy ===
/** The two java.lang.String operations the command parser relies on:
    `trim()`, and `split(separator, 2)` for a separator that is a non-empty
    literal string (no regular-expression metacharacters). */
module JavaString {
  import opened Wrappers

  /** `trim()` removes every char whose code is at most U+0020, not just spaces. */
  predicate IsTrimmable(c: char) { c <= ' ' }

  predicate AllTrimmable(s: string) { forall i :: 0 <= i < |s| ==> IsTrimmable(s[i]) }

  /** Neither end of `s` is a char `trim()` would remove. */
  predicate IsTrimmed(s: string) { |s| == 0 || (!IsTrimmable(s[0]) && !IsTrimmable(s[|s| - 1])) }

  /** Every char of `s` from index `lo` up to (not including) `hi` is removable. */
  predicate TrimmableBetween(s: string, lo: int, hi: int)
    requires 0 <= lo && hi <= |s|
  {
    forall i :: lo <= i < hi ==> IsTrimmable(s[i])
  }

  /** How many removable chars `s` starts with. */
  function LeadingCount(s: string): (n: nat)
    ensures n <= |s| && TrimmableBetween(s, 0, n)
    ensures n < |s| ==> !IsTrimmable(s[n])
  {
    if |s| == 0 || !IsTrimmable(s[0]) then 0
    else
      var m := LeadingCount(s[1..]);
      assert forall i :: 1 <= i < m + 1 ==> s[i] == s[1..][i - 1];
      m + 1
  }

  /** How many removable chars `s` ends with. */
  function TrailingCount(s: string): (n: nat)
    ensures n <= |s| && TrimmableBetween(s, |s| - n, |s|)
    ensures n < |s| ==> !IsTrimmable(s[|s| - n - 1])
  {
    if |s| == 0 || !IsTrimmable(s[|s| - 1]) then 0
    else
      var m := TrailingCount(s[..|s| - 1]);
      assert forall i :: 0 <= i < |s| - 1 ==> s[i] == s[..|s| - 1][i];
      m + 1
  }

  /** `s.trim()`: the middle of `s` once the removable chars at both ends are
      gone; everything cut off is removable and what is kept starts and ends
      with a char that is not. */
  function Trim(s: string): (r: string)
    ensures |r| <= |s| && IsTrimmed(r)
    ensures var i := LeadingCount(s);
      i + |r| <= |s| && r == s[i..i + |r|] && TrimmableBetween(s, 0, i) && TrimmableBetween(s, i + |r|, |s|)
  {
    var i := LeadingCount(s);
    var n := TrailingCount(s[i..]);
    var r := s[i..|s| - n];
    assert TrimmableBetween(s, |s| - n, |s|) by {
      forall j | |s| - n <= j < |s| ensures IsTrimmable(s[j]) {
        assert s[j] == s[i..][j - i];
      }
    }
    assert |r| > 0 ==> !IsTrimmable(r[|r| - 1]) by {
      if |r| > 0 {
        assert r[|r| - 1] == s[i..][|s| - i - n - 1];
      }
    }
    r
  }

  /** The count of leading removable chars is pinned down by its contract. */
  lemma LeadingCountUnique(s: string, k: nat)
    requires k <= |s| && TrimmableBetween(s, 0, k) && (k < |s| ==> !IsTrimmable(s[k]))
    ensures LeadingCount(s) == k
  {
  }

  /** The count of trailing removable chars is pinned down by its contract. */
  lemma TrailingCountUnique(s: string, k: nat)
    requires k <= |s| && TrimmableBetween(s, |s| - k, |s|) && (k < |s| ==> !IsTrimmable(s[|s| - k - 1]))
    ensures TrailingCount(s) == k
  {
  }

  /** Any split of `s` into removable padding around a trimmed middle is the
      one `trim()` finds. */
  lemma TrimUnique(s: string, pre: string, mid: string, post: string)
    requires s == pre + mid + post
    requires AllTrimmable(pre) && AllTrimmable(post) && IsTrimmed(mid)
    ensures Trim(s) == mid
  {
    var i := |pre|;
    assert forall j :: 0 <= j < i ==> s[j] == pre[j];
    assert forall j :: i + |mid| <= j < |s| ==> s[j] == post[j - i - |mid|];
    if |mid| > 0 {
      assert s[i] == mid[0];
      LeadingCountUnique(s, i);
      var t := s[i..];
      assert t == mid + post;
      assert forall j :: |mid| <= j < |t| ==> t[j] == post[j - |mid|];
      assert t[|mid| - 1] == mid[|mid| - 1];
      TrailingCountUnique(t, |post|);
    } else {
      LeadingCountUnique(s, |s|);
    }
  }

  /** Trimming twice is trimming once. */
  lemma TrimIdempotent(s: string)
    ensures Trim(Trim(s)) == Trim(s)
  {
    var r := Trim(s);
    assert r == "" + r + "";
    TrimUnique(r, "", r, "");
  }

  /** The trimmed text is empty exactly when every char is removable. */
  lemma TrimEmptyIff(s: string)
    ensures Trim(s) == "" <==> AllTrimmable(s)
  {
    if AllTrimmable(s) {
      assert s == s + "" + "";
      TrimUnique(s, s, "", "");
    }
  }

  /** A trimmed text is left alone by `trim()`. */
  lemma TrimOfTrimmed(s: string)
    requires IsTrimmed(s)
    ensures Trim(s) == s
  {
    assert s == "" + s + "";
    TrimUnique(s, "", s, "");
  }

  /** A single trailing blank after a trimmed text is cut off again. */
  lemma TrimBlankAfter(s: string)
    requires IsTrimmed(s)
    ensures Trim(s + " ") == s
  {
    assert s + " " == "" + s + " ";
    TrimUnique(s + " ", "", s, " ");
  }

  /** A single leading blank before a trimmed text is cut off again. */
  lemma TrimBlankBefore(s: string)
    requires IsTrimmed(s)
    ensures Trim(" " + s) == s
  {
    assert " " + s == " " + s + "";
    TrimUnique(" " + s, " ", s, "");
  }

  /** `sep` occurs in `s` starting at index `i`. */
  predicate OccursAt(s: string, sep: string, i: int)
  {
    0 <= i && i + |sep| <= |s| && s[i..i + |sep|] == sep
  }

  predicate Contains(s: string, sep: string)
  {
    exists i :: 0 <= i <= |s| && OccursAt(s, sep, i)
  }

  /** `i` is where `sep` occurs first in `s`. */
  predicate IsFirstOccurrence(s: string, sep: string, i: int)
  {
    OccursAt(s, sep, i) && forall k :: 0 <= k < i ==> !OccursAt(s, sep, k)
  }

  /** The first index at or after `from` where `sep` occurs, if any. */
  function IndexOfFrom(s: string, sep: string, from: nat): (r: Option<nat>)
    requires from <= |s|
    ensures r.Some? ==> from <= r.value && OccursAt(s, sep, r.value)
    ensures r.Some? ==> forall k :: from <= k < r.value ==> !OccursAt(s, sep, k)
    ensures r.None? ==> forall k :: from <= k <= |s| ==> !OccursAt(s, sep, k)
    decreases |s| - from
  {
    if OccursAt(s, sep, from) then Some(from)
    else if from == |s| then None
    else IndexOfFrom(s, sep, from + 1)
  }

  /** `s.split(sep, 2)` for a non-empty literal `sep`: the whole string when
      `sep` does not occur, otherwise the text before the first occurrence
      and everything after it, later occurrences included. Neither part is
      dropped when it is empty. */
  function SplitLimit2(s: string, sep: string): (parts: seq<string>)
    requires |sep| > 0
    ensures |parts| == 1 || |parts| == 2
    ensures |parts| == 1 <==> !Contains(s, sep)
    ensures |parts| == 1 ==> parts[0] == s
    ensures |parts| == 2 ==> s == parts[0] + sep + parts[1] && IsFirstOccurrence(s, sep, |parts[0]|)
  {
    match IndexOfFrom(s, sep, 0)
    case None => [s]
    case Some(i) =>
      assert s == s[..i] + sep + s[i + |sep|..];
      [s[..i], s[i + |sep|..]]
  }

  /** Splitting at the first occurrence is the only split `split` can make. */
  lemma SplitLimit2Unique(s: string, sep: string, before: string, after: string)
    requires |sep| > 0
    requires s == before + sep + after && forall k :: 0 <= k < |before| ==> !OccursAt(s, sep, k)
    ensures SplitLimit2(s, sep) == [before, after]
  {
    assert s[|before|..|before| + |sep|] == sep;
    assert OccursAt(s, sep, |before|);
    var parts := SplitLimit2(s, sep);
    assert |parts| == 2;
    assert |parts[0]| == |before|;
    assert parts[0] == s[..|before|] == before;
    assert parts[1] == s[|before| + |sep|..] == after;
  }

  /** When the text before a separator lacks the separator's first char,
      no occurrence can start inside it. */
  lemma NoOccurrenceBefore(before: string, sep: string, after: string)
    requires |sep| > 0 && forall j :: 0 <= j < |before| ==> before[j] != sep[0]
    ensures forall k :: 0 <= k < |before| ==> !OccursAt(before + sep + after, sep, k)
  {
    var s := before + sep + after;
    forall k | 0 <= k < |before| ensures !OccursAt(s, sep, k) {
      assert k + |sep| <= |s| ==> s[k..k + |sep|][0] == s[k] == before[k];
    }
  }
}

=== FILE: parser.dfy ===
/** `duke.parser.Parser`: maps a command word and its argument text to a
    command. Every malformed input becomes an `Invalid` command carrying the
    usage text of the command it was meant for; nothing escapes as an error.

    The class `duke.common.Strings` is not part of this model. The command
    words are the eight words of the program's input interface; the two
    separators and the usage texts are opaque and enter as a `Texts` value. */
module Parser {
  import opened Wrappers
  import opened JavaString
  import opened JavaInt
  import opened Dates
  import opened Commands

  const ByeWord := "bye"
  const ListWord := "list"
  const TodoWord := "todo"
  const DeadlineWord := "deadline"
  const EventWord := "event"
  const MarkWord := "mark"
  const UnmarkWord := "unmark"
  const DeleteWord := "delete"

  predicate IsCommandWord(w: string)
  {
    w == ByeWord || w == ListWord || w == TodoWord || w == DeadlineWord
    || w == EventWord || w == MarkWord || w == UnmarkWord || w == DeleteWord
  }

  /** The separators and usage texts the parser quotes. */
  datatype Texts = Texts(
    deadlineSeparator: string,
    eventSeparator: string,
    usageBye: string,
    usageList: string,
    usageListDate: string,
    usageTodo: string,
    usageDeadline: string,
    usageEvent: string,
    usageMark: string,
    usageUnmark: string,
    usageDelete: string)
  {
    /** `split` is only modelled for non-empty literal separators. */
    predicate Valid() { |deadlineSeparator| > 0 && |eventSeparator| > 0 }
  }

  /** When the argument text of a recognised word is acceptable, stated
      independently of the parser: `bye` takes exactly nothing, `list` nothing
      or a date, `todo` anything but the empty string, `deadline`/`event` any
      text holding their separator, and the index commands a 32-bit integer. */
  predicate ValidArgs(t: Texts, word: string, args: string)
    requires t.Valid()
  {
    if word == ByeWord then args == ""
    else if word == ListWord then args == "" || ParseDate(args).Some?
    else if word == TodoWord then args != ""
    else if word == DeadlineWord then Contains(Trim(args), t.deadlineSeparator)
    else if word == EventWord then Contains(Trim(args), t.eventSeparator)
    else if word == MarkWord || word == UnmarkWord || word == DeleteWord then ParseInt(args).Some?
    else false
  }

  /** The usage lines shown for a malformed use of a recognised word. */
  function UsageOf(t: Texts, word: string): (lines: seq<string>)
  {
    if word == ByeWord then [t.usageBye]
    else if word == ListWord then [t.usageList, t.usageListDate]
    else if word == TodoWord then [t.usageTodo]
    else if word == DeadlineWord then [t.usageDeadline]
    else if word == EventWord then [t.usageEvent]
    else if word == MarkWord then [t.usageMark]
    else if word == UnmarkWord then [t.usageUnmark]
    else if word == DeleteWord then [t.usageDelete]
    else []
  }

  /** `parseCommand(input)`: reads the command word from `input[0]` and its
      argument text from `input[1]`. An invalid result names the word it was
      given (or no word, when the word is unknown), and the result is invalid
      exactly when the word is unknown or its arguments are unacceptable. */
  function ParseCommand(t: Texts, input: seq<string>): (r: Command)
    requires |input| >= 2 && t.Valid()
    ensures r.Invalid? ==> r.commandWord == if IsCommandWord(input[0]) then Some(input[0]) else None
    ensures r.Bye? ==> input[0] == ByeWord
    ensures r.List? ==> input[0] == ListWord
    ensures r.Todo? ==> input[0] == TodoWord
    ensures r.Deadline? ==> input[0] == DeadlineWord
    ensures r.Event? ==> input[0] == EventWord
    ensures r.Mark? ==> input[0] == MarkWord
    ensures r.Unmark? ==> input[0] == UnmarkWord
    ensures r.Delete? ==> input[0] == DeleteWord
    ensures !IsCommandWord(input[0]) ==> r == Invalid(None, [], false)
    ensures r.Invalid? <==> !(IsCommandWord(input[0]) && ValidArgs(t, input[0], input[1]))
    ensures r.Invalid? && IsCommandWord(input[0]) ==>
              r.usage == UsageOf(t, input[0]) &&
              r.showsSeparatorHint == (input[0] == DeadlineWord || input[0] == EventWord)
    ensures r.List? ==> r.queryDate == (if input[1] == "" then None else ParseDate(input[1]))
    ensures r.Todo? ==> r.description == Trim(input[1])
    ensures r.Deadline? ==> SplitDescriptionAndTime(input[1], t.deadlineSeparator) == Some((r.description, r.due))
    ensures r.Event? ==> SplitDescriptionAndTime(input[1], t.eventSeparator) == Some((r.description, r.time))
    ensures r.Mark? || r.Unmark? || r.Delete? ==> ParseInt(input[1]) == Some(r.index)
  {
    var command, args := input[0], input[1];
    if command == ByeWord then
      PrepareBye(t, args)
    else if command == ListWord then
      PrepareList(t, args)
    else if command == TodoWord then
      PrepareTodo(t, args)
    else if command == DeadlineWord then
      PrepareDeadline(t, args)
    else if command == EventWord then
      PrepareEvent(t, args)
    else if command == MarkWord then
      PrepareMark(t, args)
    else if command == UnmarkWord then
      PrepareUnmark(t, args)
    else if command == DeleteWord then
      PrepareDelete(t, args)
    else Invalid(None, [], false)
  }

  /** `bye` takes no arguments at all: the untrimmed text must be empty, so
      even a lone blank is rejected. */
  function PrepareBye(t: Texts, args: string): (r: Command)
    ensures r == Bye <==> args == ""
    ensures r != Bye ==> r == Invalid(Some(ByeWord), [t.usageBye], false)
  {
    if args != "" then Invalid(Some(ByeWord), [t.usageBye], false) else Bye
  }

  /** `list` alone lists everything; `list <date>` filters by a date read with
      the `yyyy-MM-dd` pattern; anything else shows both usage forms. */
  function PrepareList(t: Texts, args: string): (r: Command)
    ensures r.List? || r.Invalid?
    ensures args == "" ==> r == List(None)
    ensures r.List? && r.queryDate.Some? ==> args != "" && ParseDate(args) == r.queryDate
    ensures args != "" && ParseDate(args).Some? ==> r == List(ParseDate(args))
    ensures r.Invalid? <==> args != "" && ParseDate(args).None?
    ensures r.Invalid? ==> r == Invalid(Some(ListWord), [t.usageList, t.usageListDate], false)
  {
    if args == "" then List(None)
    else match ParseDate(args)
      case Some(queryDate) => List(Some(queryDate))
      case None => Invalid(Some(ListWord), [t.usageList, t.usageListDate], false)
  }

  /** `todo` rejects only the exactly-empty text; otherwise the description
      is the trimmed text, which may itself be empty. */
  function PrepareTodo(t: Texts, args: string): (r: Command)
    ensures r.Todo? || r.Invalid?
    ensures r.Invalid? <==> args == ""
    ensures r.Invalid? ==> r == Invalid(Some(TodoWord), [t.usageTodo], false)
    ensures r.Todo? ==> r.description == Trim(args)
  {
    if args == "" then Invalid(Some(TodoWord), [t.usageTodo], false) else Todo(Trim(args))
  }

  /** The shared argument shape of `deadline` and `event`: the trimmed text
      split once at the first separator, each side trimmed again. Only a
      missing separator is rejected; either side may come out empty. */
  function SplitDescriptionAndTime(args: string, sep: string): (r: Option<(string, string)>)
    requires |sep| > 0
    ensures r.None? <==> !Contains(Trim(args), sep)
    ensures r.Some? ==> IsTrimmed(r.value.0) && IsTrimmed(r.value.1)
  {
    var parts := SplitLimit2(Trim(args), sep);
    if |parts| != 2 then None else Some((Trim(parts[0]), Trim(parts[1])))
  }

  /** `deadline <description> <separator> <time>`. */
  function PrepareDeadline(t: Texts, args: string): (r: Command)
    requires t.Valid()
    ensures r.Deadline? || r.Invalid?
    ensures r.Invalid? <==> !Contains(Trim(args), t.deadlineSeparator)
    ensures r.Invalid? ==> r == Invalid(Some(DeadlineWord), [t.usageDeadline], true)
    ensures r.Deadline? ==> SplitDescriptionAndTime(args, t.deadlineSeparator) == Some((r.description, r.due))
  {
    var parts := SplitDescriptionAndTime(args, t.deadlineSeparator);
    if parts.None? then Invalid(Some(DeadlineWord), [t.usageDeadline], true)
    else Deadline(parts.value.0, parts.value.1)
  }

  /** `event <description> <separator> <time>`, shaped exactly like `deadline`. */
  function PrepareEvent(t: Texts, args: string): (r: Command)
    requires t.Valid()
    ensures r.Event? || r.Invalid?
    ensures r.Invalid? <==> !Contains(Trim(args), t.eventSeparator)
    ensures r.Invalid? ==> r == Invalid(Some(EventWord), [t.usageEvent], true)
    ensures r.Event? ==> SplitDescriptionAndTime(args, t.eventSeparator) == Some((r.description, r.time))
  {
    var parts := SplitDescriptionAndTime(args, t.eventSeparator);
    if parts.None? then Invalid(Some(EventWord), [t.usageEvent], true)
    else Event(parts.value.0, parts.value.1)
  }

  /** `mark <index>`: any 32-bit integer, zero and negatives included; the
      text is not trimmed. */
  function PrepareMark(t: Texts, args: string): (r: Command)
    ensures r.Mark? <==> ParseInt(args).Some?
    ensures r.Mark? ==> r.index == ParseInt(args).value
    ensures !r.Mark? ==> r == Invalid(Some(MarkWord), [t.usageMark], false)
  {
    match ParseInt(args)
    case Some(index) => Mark(index)
    case None => Invalid(Some(MarkWord), [t.usageMark], false)
  }

  /** `unmark <index>`, with the same index rules as `mark`. */
  function PrepareUnmark(t: Texts, args: string): (r: Command)
    ensures r.Unmark? <==> ParseInt(args).Some?
    ensures r.Unmark? ==> r.index == ParseInt(args).value
    ensures !r.Unmark? ==> r == Invalid(Some(UnmarkWord), [t.usageUnmark], false)
  {
    match ParseInt(args)
    case Some(index) => Unmark(index)
    case None => Invalid(Some(UnmarkWord), [t.usageUnmark], false)
  }

  /** `delete <index>`, with the same index rules as `mark`. */
  function PrepareDelete(t: Texts, args: string): (r: Command)
    ensures r.Delete? <==> ParseInt(args).Some?
    ensures r.Delete? ==> r.index == ParseInt(args).value
    ensures !r.Delete? ==> r == Invalid(Some(DeleteWord), [t.usageDelete], false)
  {
    match ParseInt(args)
    case Some(index) => Delete(index)
    case None => Invalid(Some(DeleteWord), [t.usageDelete], false)
  }

  /** Padding around the text and around the separator is dropped, the text
      is cut at the first separator, and later separators stay in the time. */
  lemma SplitAtFirstSeparator(args: string, sep: string, before: string, after: string)
    requires |sep| > 0
    requires Trim(args) == before + sep + after
    requires forall k :: 0 <= k < |before| ==> !OccursAt(Trim(args), sep, k)
    ensures SplitDescriptionAndTime(args, sep) == Some((Trim(before), Trim(after)))
  {
    SplitLimit2Unique(Trim(args), sep, before, after);
  }

  /** Writing a description and a time around the separator, one blank on
      each side, and splitting again gives both back, provided neither has
      padding, neither is empty, and the description cannot contain the start
      of the separator. */
  lemma SplitRoundTrip(description: string, sep: string, time: string)
    requires |sep| > 0 && sep[0] != ' '
    requires |description| > 0 && IsTrimmed(description) && |time| > 0 && IsTrimmed(time)
    requires forall j :: 0 <= j < |description| ==> description[j] != sep[0]
    ensures SplitDescriptionAndTime(description + " " + sep + " " + time, sep) == Some((description, time))
  {
    var before, after := description + " ", " " + time;
    var args := description + " " + sep + " " + time;
    assert args == before + sep + after;
    assert Trim(args) == args by {
      assert IsTrimmed(args);
      TrimOfTrimmed(args);
    }
    TrimBlankAfter(description);
    TrimBlankBefore(time);
    NoOccurrenceBefore(before, sep, after);
    SplitAtFirstSeparator(args, sep, before, after);
  }

  /** With separator `/by`, only the first `/by` splits, and the second
      stays in the time. */
  lemma DeadlineSplitExample(t: Texts)
    requires t.Valid() && t.deadlineSeparator == "/by"
    ensures PrepareDeadline(t, "submit report" + " " + t.deadlineSeparator + " " + "2019-10-15 /by noon")
         == Deadline("submit report", "2019-10-15 /by noon")
  {
    var description, time := "submit report", "2019-10-15 /by noon";
    assert IsTrimmed(description) && IsTrimmed(time);
    SplitRoundTrip(description, "/by", time);
  }

  /** A separator with no blank at either end, with nothing but padding
      around it, splits into two empty parts. */
  lemma SplitBareSeparator(sep: string, pad: string)
    requires |sep| > 0 && IsTrimmed(sep) && AllTrimmable(pad)
    ensures SplitDescriptionAndTime(pad + sep + pad, sep) == Some(("", ""))
  {
    TrimUnique(pad + sep + pad, pad, sep, pad);
    TrimOfTrimmed("");
    assert sep == "" + sep + "";
    SplitAtFirstSeparator(pad + sep + pad, sep, "", "");
  }

  /** Only the separator is required: for separators with no blank at either
      end, `deadline` and `event` accept an empty description and an empty
      time. */
  lemma TimedCommandsAcceptEmptyParts(t: Texts, pad: string)
    requires t.Valid() && IsTrimmed(t.deadlineSeparator) && IsTrimmed(t.eventSeparator)
    requires AllTrimmable(pad)
    ensures PrepareDeadline(t, pad + t.deadlineSeparator + pad) == Deadline("", "")
    ensures PrepareEvent(t, pad + t.eventSeparator + pad) == Event("", "")
  {
    SplitBareSeparator(t.deadlineSeparator, pad);
    SplitBareSeparator(t.eventSeparator, pad);
  }

  /** The untrimmed comparisons of `bye` and `todo`: a lone blank is an
      invalid `bye` but a `todo` with an empty description. */
  lemma BlankArguments(t: Texts, blanks: string)
    requires |blanks| > 0 && AllTrimmable(blanks)
    ensures PrepareBye(t, blanks) == Invalid(Some(ByeWord), [t.usageBye], false)
    ensures PrepareTodo(t, blanks) == Todo("")
  {
    TrimEmptyIff(blanks);
  }

  /** Each index command carries exactly the number written, zero and
      negatives included, for every 32-bit value; a number beyond 32 bits and
      a number with a blank in front are both invalid. */
  lemma IndexCommandsRoundTrip(t: Texts, n: int)
    ensures InInt32(n) ==> PrepareMark(t, ShowInt(n)) == Mark(n)
    ensures InInt32(n) ==> PrepareUnmark(t, ShowInt(n)) == Unmark(n)
    ensures InInt32(n) ==> PrepareDelete(t, ShowInt(n)) == Delete(n)
    ensures !InInt32(n) ==> PrepareMark(t, ShowInt(n)).Invalid?
    ensures !InInt32(n) ==> PrepareUnmark(t, ShowInt(n)).Invalid?
    ensures !InInt32(n) ==> PrepareDelete(t, ShowInt(n)).Invalid?
    ensures PrepareMark(t, " " + ShowInt(n)).Invalid?
    ensures PrepareUnmark(t, " " + ShowInt(n)).Invalid?
    ensures PrepareDelete(t, " " + ShowInt(n)).Invalid?
  {
    ParseShowInt(n);
  }

  /** A date written in the list pattern selects exactly that date. */
  lemma ListRoundTrip(t: Texts, d: Date)
    requires IsValid(d)
    ensures PrepareList(t, FormatDate(d)) == List(Some(d))
  {
    ParseFormatDate(d);
  }

  /** For every recognised word, acceptable arguments never give `Invalid`,
      and an unknown word always gives the bare `Invalid`. */
  lemma RecognisedWordsWithValidArgs(t: Texts, word: string, args: string)
    requires t.Valid()
    ensures IsCommandWord(word) && ValidArgs(t, word, args) ==> !ParseCommand(t, [word, args]).Invalid?
    ensures !IsCommandWord(word) ==> ParseCommand(t, [word, args]) == Invalid(None, [], false)
  {
  }
}

=== FILE: tasks.dfy ===
/** The default-package `Task` class: a description and a done flag. The
    object's one mutation, `setIsDone`, is modelled as a function returning the
    updated value. */
module Tasks {

  datatype Task = Task(description: string, isDone: bool)

  /** The check-mark glyph shown for a finished task. */
  const CheckMark: char := '\U{2713}'

  /** A new task keeps the given description and starts out not done. */
  function NewTask(description: string): (t: Task)
    ensures GetTaskDescription(t) == description && !GetIsDone(t)
  {
    Task(description, false)
  }

  function GetTaskDescription(t: Task): (description: string) { t.description }

  function GetIsDone(t: Task): (isDone: bool) { t.isDone }

  /** Sets the done flag to `isDone` and changes nothing else. */
  function SetIsDone(t: Task, isDone: bool): (r: Task)
    ensures GetIsDone(r) == isDone
    ensures GetTaskDescription(r) == GetTaskDescription(t)
  {
    t.(isDone := isDone)
  }

  /** `[✓] description` for a done task, `[ ] description` otherwise: a
      four-char status box followed by the description, untouched. */
  function Render(t: Task): (s: string)
    ensures |s| == 4 + |t.description|
    ensures s[..4] == ['[', if t.isDone then CheckMark else ' ', ']', ' ']
    ensures s[4..] == t.description
  {
    if t.isDone then [ '[', CheckMark, ']', ' ' ] + t.description
    else "[ ] " + t.description
  }

  /** A second call overrides the first, and setting the flag to the value it
      already has leaves the task as it was. */
  lemma SetIsDoneLastWins(t: Task, first: bool, second: bool)
    ensures SetIsDone(SetIsDone(t, first), second) == SetIsDone(t, second)
    ensures SetIsDone(t, t.isDone) == t
  {
  }

  /** The state after any run of `setIsDone` calls: the description is the
      original one and the flag is the last value set (or the starting value
      if there were no calls). */
  function SetIsDoneAll(t: Task, flags: seq<bool>): (r: Task)
    ensures GetTaskDescription(r) == GetTaskDescription(t)
    ensures GetIsDone(r) == if |flags| == 0 then GetIsDone(t) else flags[|flags| - 1]
    decreases |flags|
  {
    if |flags| == 0 then t else SetIsDone(SetIsDoneAll(t, flags[..|flags| - 1]), flags[|flags| - 1])
  }

  /** Two tasks render alike only when they are the same task: the rendering
      determines both the description and the done flag. */
  lemma RenderInjective(a: Task, b: Task)
    requires Render(a) == Render(b)
    ensures a == b
  {
    assert Render(a)[1] == Render(b)[1];
    assert a.description == Render(a)[4..] == Render(b)[4..] == b.description;
  }
}

=== FILE: wrappers.dfy ===
/** The optional-value datatype that stands in for Java's nullable references. */
module Wrappers {

  /** `None` plays the part of `null`; `Some(v)` a present value. */
  datatype Option<+T> = None | Some(value: T)
}
